=== FILE: README.md ===
# potential-chainsaw packet core in Dafny

This project models the packet core of potential-chainsaw, a small Rust
peer for JackTrip. It exchanges mono 16-bit audio over UDP in fixed
528-byte datagrams. Each datagram has two parts:

- a 16-byte packed header: timestamp, sequence number, buffer size,
  sampling-rate code, bit resolution, channel count and connection mode;
- 256 little-endian `i16` sample slots.

The model covers:

- **Wire** (`wire.dfy`): the little-endian codecs for `u16`, `u64` and
  `i16`, with round-trip lemmas in both directions.
- **SamplingRate** (`sampling_rate.dfy`): the sampling-rate registry.
  `src/jack_trip_header.rs` declares a second `SamplingRateT`, with the
  same variants and `Display` labels as the one in `src/sampling_rate_t.rs`;
  it is the type of the packed header's rate field. The model has one
  datatype for both.
  - `From<u8>` is total and sends codes 7..255 to `UNDEF`.
  - `as_numeric` gives the rate in Hz.
  - Each variant has a `Display` label.
- **PacketLayout** (`packet.dfy`):
  - the packed header layout and its field offsets;
  - header decoding as the server reads it with `from_le_bytes`;
  - the sample slots;
  - the restamping of bytes 0..10;
  - the effect of a UDP receive on a reused buffer.
- **Handshake** (`handshake.dfy`):
  - the connection parameter check;
  - the first-packet template;
  - the client/server send and receive order of `jacktrip_connect`, as a
    trace of socket actions.
- **Bridge** (`bridge.dfy`): the two real-time callbacks after the
  handshake, as classes over their reused buffers.
  - `InboundPath` decodes a received datagram into the output block.
  - `OutboundPath` writes a captured block into the outgoing buffer, stamps
    it and sends it.
  - `StreamOutbound` runs the send callback over a sequence of periods.
- **EchoServer** (`echo_server.dfy`): the standalone `udpserver` binary.
  It mirrors the first packet's header back and then restamps and re-sends
  that reply for every datagram it receives.

Rust panics are not preconditions. They appear as outcomes: a `Panic`
value (`SliceOutOfRange` or `AddOverflow`, the latter in debug-build
semantics) or a `Rejected` verdict for a failed `assert!`.

The code behaves as follows, which a reader may not expect:

- `as_numeric` maps `SR88` to 88000 Hz, although the enum's own doc
  comment (`src/sampling_rate_t.rs`, line 10) says 88200 Hz. No code yields
  88200, so a device at 88200 Hz rejects every header.
- `UNDEF` maps to 0 rather than "no rate". An unknown code then fails the
  rate check against any real device rate.
- The streaming counter starts at 1 and is incremented before use. The
  first streamed packet therefore carries sequence number 2.
- When the counter reaches 65535, the next increment panics (debug build)
  instead of wrapping.
- Both roles stream to the source address of the first datagram they
  received. In the client, the server address built from the command line
  is local to the client branch and serves only the first send.
- A datagram shorter than 528 bytes overwrites only a prefix of the reused
  buffer. The bytes after it keep their earlier values.
- The inbound path reads whatever the buffer holds. It does not substitute
  silence for a malformed or missing packet.

## Model

| member | source | states |
|---|---|---|
| Wire.U16RoundTrip | src/bin/udpserver.rs:72-73 | decoding the LE bytes of any u16 gives it back |
| Wire.U16BytesRoundTrip | src/bin/udpserver.rs:72-73 | any 2 bytes are the LE encoding of the u16 they decode to |
| Wire.U64RoundTrip | src/bin/udpserver.rs:71 | decoding the LE bytes of any u64 gives it back |
| Wire.U64BytesRoundTrip | src/bin/udpserver.rs:71 | any 8 bytes are the LE encoding of the u64 they decode to |
| Wire.I16RoundTrip | src/potential_chainsaw.rs:126-139 | a sample written with `to_le_bytes` reads back with `from_le_bytes` (two's complement) |
| Wire.I16BytesRoundTrip | src/potential_chainsaw.rs:126-127 | any 2 bytes are the encoding of exactly the i16 they decode to |
| SamplingRate.Discriminant | src/jack_trip_header.rs:5-14 | a variant's byte is its position in the 8-variant declaration |
| SamplingRate.FromCode | src/sampling_rate_t.rs:47-60 | codes 0..6 give the variants in declaration order; every code 7..255 gives UNDEF; never fails |
| SamplingRate.AsNumeric | src/sampling_rate_t.rs:31-45 | the rate is 0 exactly for UNDEF |
| SamplingRate.Label | src/sampling_rate_t.rs:16-29 | every real rate is labelled in kHz; only UNDEF's label is not |
| SamplingRate.DiscriminantRoundTrip | src/sampling_rate_t.rs:49-57 | decoding a variant's discriminant gives the variant back |
| SamplingRate.CodeRoundTrip | src/sampling_rate_t.rs:49-57 | codes 0..7 survive decode and re-encode; codes 8..255 collapse to 7 |
| SamplingRate.AsNumericInjective | src/sampling_rate_t.rs:33-42 | different variants have different rates |
| SamplingRate.AsNumericIncreasing | src/sampling_rate_t.rs:34-40 | over codes 0..6 the rate is positive and strictly increasing |
| SamplingRate.UnknownCodeHasNoRate | src/sampling_rate_t.rs:41-57 | an unknown code yields a rate no positive device rate equals |
| SamplingRate.OutgoingCodeIs48k | src/sampling_rate_t.rs:37-53 | code 3 is SR48 and means 48000 Hz |
| SamplingRate.No88200 | src/sampling_rate_t.rs:10-38 | SR88 means 88000 and no code means 88200 |
| SamplingRate.LabelsDistinct | src/sampling_rate_t.rs:16-29 | distinct variants have distinct labels; UNDEF's is the fixed warning text |
| PacketLayout.PackedLayout | src/jack_trip_header.rs:31-40 | the packed fields sit at offsets 0, 8, 10, 12, 13, 14, 15 and the header takes 16 bytes |
| PacketLayout.EncodeHeaderLayout | src/jack_trip_header.rs:33-40 | each field's LE bytes occupy its packed offset and width in the encoded header |
| PacketLayout.DecodeHeader | src/bin/udpserver.rs:70-78 | the field-by-field decoder: re-encoding its header reproduces bytes 0..12 and 13..16, and byte 12 when it is below 8 (else 7) |
| PacketLayout.DecodeHeaderReadsPrefixOnly | src/bin/udpserver.rs:70-78 | the decoded header depends on bytes 0..16 only |
| PacketLayout.HeaderRoundTrip | src/bin/udpserver.rs:70-78 | decoding the encoding of any header gives it back |
| PacketLayout.HeaderBytesRoundTrip | src/bin/udpserver.rs:74 | 16 bytes survive decode and re-encode exactly when the rate byte is below 8 |
| PacketLayout.Stamped | src/potential_chainsaw.rs:148-150 | a restamped buffer decodes to the new timestamp at 0..8 and the new sequence number at 8..10, and keeps bytes 10.. |
| PacketLayout.StampedHeader | src/potential_chainsaw.rs:146-150 | restamping replaces only timestamp and sequence; bytes 10.. are unchanged |
| PacketLayout.PayloadLayout | src/jack_trip_header.rs:41-42 | sample slots are 2 bytes at 16 + 2i, disjoint, inside the 528 bytes |
| PacketLayout.EncodePacketSample | src/jack_trip_header.rs:42 | sample i of an encoded packet is its i-th data value |
| PacketLayout.PacketRoundTrip | src/jack_trip_header.rs:31-43 | decoding an encoded well-formed packet gives it back |
| PacketLayout.Received | src/potential_chainsaw.rs:84-86 | a receive overwrites the buffer's prefix with the datagram, cut off at the buffer's length, and keeps the rest |
| Handshake.VerifyConnectionParams | src/potential_chainsaw.rs:13-18 | accepted iff rate matches the device, 16 bits, 1 channel, 128 frames; each error is reported exactly when its check is the first to fail, carrying the offending value (the advertised and device rates for a mismatch) |
| Handshake.TemplateHeader | src/potential_chainsaw.rs:26-33 | the first packet's header carries the timestamp and sequence 0, and passes the check of a 48000 Hz device |
| Handshake.Template | src/potential_chainsaw.rs:23-33 | the first packet is 528 bytes and decodes to the template header over a silent payload |
| Handshake.TemplateBytes | src/potential_chainsaw.rs:23-33 | the template is the LE timestamp, then 0, 0, 128, 0, 3, 16, 1, 0, then 512 zeros |
| Handshake.SendFirstPacket | src/potential_chainsaw.rs:20-40 | a freshly allocated buffer, filled by index, equals the template and decodes to its header over silence |
| Handshake.TemplateAcceptedIff | src/potential_chainsaw.rs:13-33 | the template passes the receiver's check iff its device runs at 48000 Hz |
| Handshake.UnknownCodeRejected | src/potential_chainsaw.rs:13-14 | a rate byte 7..255 is rejected as a rate mismatch (0 vs the device rate) |
| Handshake.Device88200RejectsAll | src/potential_chainsaw.rs:14 | a device at 88200 Hz rejects every header |
| Handshake.CheckFirstPacket | src/potential_chainsaw.rs:42-50 | a first datagram, received into a zeroed buffer, is accepted iff it has at least 15 bytes, bytes 10..12 are 128, 0, byte 12's rate is the device rate, byte 13 is 16 and byte 14 is 1 |
| Handshake.Connect | src/potential_chainsaw.rs:86-102 | connected iff the first packet passes; the client's trace is: send the template to port 4464, then receive; the server's is: receive, then (only if accepted) send the template to the datagram's source; the streaming peer is that source and the buffer is the template |
| Handshake.LoopbackHandshake | src/potential_chainsaw.rs:90-102 | two copies of the program, client and server, both connect iff the rate is 48000 Hz |
| Handshake.RejectsBufferSize256 | src/potential_chainsaw.rs:17 | a first packet announcing 256 frames aborts the connection with the buffer-size error |
| Bridge.WithBlockLayout | src/potential_chainsaw.rs:136-141 | after the payload loop the block reads back, and the header and the slots past the block are untouched |
| Bridge.StreamedPacket | src/potential_chainsaw.rs:136-150 | a streamed packet decodes to the old header with the new timestamp and sequence, and to the block |
| Bridge.StreamedFromTemplateAccepted | src/potential_chainsaw.rs:101-150 | every packet streamed from the template still passes a 48000 Hz peer's check |
| Bridge.WithBlock | src/potential_chainsaw.rs:136-141 | the outgoing buffer after the payload loop is 528 bytes (its layout is stated by Bridge.WithBlockLayout) |
| Bridge.OutboundInboundRoundTrip | src/potential_chainsaw.rs:124-141 | the peer's inbound path plays back exactly the block the outbound path encoded |
| Bridge.InboundPath.constructor | src/potential_chainsaw.rs:86 | the receive buffer starts as 528 zeros |
| Bridge.InboundPath.Receive | src/potential_chainsaw.rs:110-131 | the buffer becomes the received datagram over the old contents; the output block is the decoded payload, or the loop panics past 256 samples |
| Bridge.OutboundPath.constructor | src/potential_chainsaw.rs:101-106 | streaming starts from the handshake buffer with the counter at 1 |
| Bridge.OutboundPath.WriteBlock | src/potential_chainsaw.rs:136-141 | the payload loop leaves the buffer as the block written over the old contents, and stops at the end of the buffer |
| Bridge.OutboundPath.Send | src/potential_chainsaw.rs:133-159 | a block over 256 samples panics; otherwise the block is written, and at counter 65535 the increment panics; otherwise the counter goes up by 1 and the stamped buffer is sent to the peer, carrying the stamp, the new counter, the old bytes 10..16 and the block; bytes 10..16 survive every outcome |
| Bridge.StreamOutbound | src/potential_chainsaw.rs:106-150 | packet k goes to the peer with stamp k, sequence counter + k + 1, unchanged bytes 10..16 and block k as payload; the counter ends at its start plus the packets sent, bytes 10..16 of the buffer survive, and after a full run the buffer holds the last packet sent (or, when there were no periods, is unchanged); a slice stop happens iff the next block is over 256 samples, an overflow stop iff it fits and the counter is at 65535 |
| EchoServer.MirrorReplyDecodes | src/bin/udpserver.rs:81-98 | the first reply decodes to sequence 0, 128 frames, the sender's bytes 12..16 and a silent payload |
| EchoServer.MirrorReply | src/bin/udpserver.rs:81-98 | the first reply is 528 bytes (what it decodes to is stated by EchoServer.MirrorReplyDecodes) |
| EchoServer.MirrorOfTemplate | src/bin/udpserver.rs:84-98 | mirroring the client's template gives the template, accepted iff the client runs at 48000 Hz |
| EchoServer.PayloadSamples | src/bin/udpserver.rs:35-47 | reads buffer_size samples from the payload; completes iff they fit in the buffer, else stops at its end |
| EchoServer.BuildMirrorReply | src/bin/udpserver.rs:81-98 | the reply built byte by byte equals the mirror reply value |
| EchoServer.AfterReceives | src/bin/udpserver.rs:107-109 | the reused receive buffer after a run of `recv_from` calls keeps its length, each datagram overwriting a prefix in turn |
| EchoServer.Server.constructor | src/bin/udpserver.rs:60-101 | the buffer holds the first datagram over zeros, the reply is its mirror, addressed to the datagram's source, and the counter is 0 |
| EchoServer.Server.Echo | src/bin/udpserver.rs:109-140 | receive; a buffer_size over 256 panics; the timestamp is written; at 65535 the increment panics; else the counter goes up by 1 and the restamped reply goes to the datagram's source; bytes 10.. of the reply buffer survive every outcome |
| EchoServer.Server.Serve | src/bin/udpserver.rs:107-141 | reply k goes to datagram k's source with stamp k, sequence counter + k + 1 and bytes 10.. unchanged; every datagram answered announced at most 256 frames, so one announcing more forces a stop; the receive buffer ends as the datagrams taken so far (including the one that caused a stop) received in order; the counter ends at its start plus the replies, and after a full run the reply buffer holds the last reply (or, when there were no datagrams, is unchanged); a slice stop means the last datagram's buffer_size is over 256, an overflow stop that it is not and the counter is at 65535 |
| EchoServer.EchoRepliesAccepted | src/bin/udpserver.rs:131-139 | after a template first packet, every reply is the template header restamped and passes a 48000 Hz check |

## Left out

- UDP sockets are values. Binding, `try_clone` and socket errors, including
  the `unwrap` on a failed send or receive, are not modelled.
- Addresses are opaque pairs of IP bytes and port. Parsing the client
  address is not modelled.
- The JACK client: creating clients, registering ports, activation,
  notifications and the stdin wait in `jacktrip_connect`.
- The two callbacks run concurrently on JACK threads and share the socket.
  They are modelled as separate objects called in sequence, with no
  interleaving.
- `SystemTime` is not modelled. Every timestamp is a parameter, and the
  conversion of microseconds to `u64` is not modelled.
- The float conversion: `* 32768.0` with its saturating cast to `i16`, and
  `/ 32768.0` on the way in. Samples are modelled as the `i16` values on
  either side of it.
- `std::ptr::read` of the packed struct. For a rate byte of 8..255 it
  produces an invalid enum value, which is undefined behaviour. Headers
  are therefore decoded field by field with `from_le_bytes` and
  `SamplingRateT::from`.
- The `Display` output of the header and all `println!` debug output,
  except the rate labels, which `SamplingRate.Label` models. The printing
  helper `print_sample_data_from_buf_unsafe` is dead code and is left out.
- Command-line handling: `src/main.rs` and `src/bin/jacktrip_client.rs`.
  The JACK notification handler is not part of this model.
- Bridge.OutboundPath.Send: models the debug build, where the `u16`
  increment panics. A release build wraps to 0 instead.
- EchoServer.Server.Echo: models the debug build, where the `u16`
  increment panics. A release build wraps to 0 instead.
- EchoServer.Server.Echo: the elapsed-time print and the first packet's
  timestamp it shows are output only and are left out.
- Features the code does not have, and so the model does not have either:
  - a lock-free queue between the callbacks;
  - silence on underrun;
  - filtering datagrams by source;
  - a rate-to-code encoder.

=== FILE: bridge.dfy ===
/**
 * The two real-time callbacks of `jacktrip_connect` after the handshake:
 * the inbound path decodes the payload of each received datagram into the
 * audio-output block, the outbound path encodes each captured block into
 * the reused outgoing buffer, stamps it and sends it.
 *
 * Each path is a small object over its own buffer. Samples are the i16
 * values the float conversion divides or produces; the conversion itself
 * is not modelled. A callback that would panic reports the `Panic` instead.
 */
module Bridge {
  import opened Wire
  import opened Wrappers
  import opened PacketLayout
  import opened Handshake

  /** The outgoing buffer after the payload loop: sample i's LE bytes at
      16 + 2i for every sample of the block, every other byte as before. */
  function WithBlock(buf: seq<byte>, block: seq<i16>): (r: seq<byte>)
    requires |buf| == PACKET_SIZE && |block| <= PAYLOAD_SAMPLES
    ensures |r| == PACKET_SIZE
  {
    buf[..HEADER_SIZE] + EncodeSamples(block) + buf[SampleOffset(|block|)..]
  }

  lemma {:induction false} EncodeSamplesSnoc(s: seq<i16>, x: i16)
    ensures EncodeSamples(s + [x]) == EncodeSamples(s) + I16ToLe(x)
  {
    if s != [] {
      assert (s + [x])[1..] == s[1..] + [x];
      EncodeSamplesSnoc(s[1..], x);
    } else {
      assert [x][1..] == [];
    }
  }

  /** One turn of the payload loop writes exactly the two bytes of sample i. */
  lemma WithBlockStep(buf: seq<byte>, block: seq<i16>, i: nat)
    requires |buf| == PACKET_SIZE && i < |block| && i < PAYLOAD_SAMPLES
    ensures WithBlock(buf, block[..i + 1])
         == WithBlock(buf, block[..i])[SampleOffset(i) := I16ToLe(block[i])[0]][SampleOffset(i) + 1 := I16ToLe(block[i])[1]]
  {
    assert block[..i + 1] == block[..i] + [block[i]];
    EncodeSamplesSnoc(block[..i], block[i]);
  }

  /** What the payload loop promises: the block reads back from the
      buffer, and the header and the slots past the block are untouched. */
  lemma WithBlockLayout(buf: seq<byte>, block: seq<i16>)
    requires |buf| == PACKET_SIZE && |block| <= PAYLOAD_SAMPLES
    ensures DecodePayload(WithBlock(buf, block), |block|) == block
    ensures WithBlock(buf, block)[..HEADER_SIZE] == buf[..HEADER_SIZE]
    ensures WithBlock(buf, block)[SampleOffset(|block|)..] == buf[SampleOffset(|block|)..]
  {
    var r := WithBlock(buf, block);
    forall i | 0 <= i < |block|
      ensures SampleAt(r, i) == block[i]
    {
      EncodeSamplesAt(block, i);
      assert r[SampleOffset(i)..SampleOffset(i) + 2] == EncodeSamples(block)[2 * i..2 * i + 2];
      I16RoundTrip(block[i]);
    }
  }

  /** A streamed packet decodes to the header it was built on with only the
      timestamp and sequence number replaced, and to the block as payload. */
  lemma StreamedPacket(buf: seq<byte>, block: seq<i16>, timestamp: u64, sequence: u16)
    requires |buf| == PACKET_SIZE && |block| <= PAYLOAD_SAMPLES
    ensures var p := Stamped(WithBlock(buf, block), timestamp, sequence);
            && DecodeHeader(p) == DecodeHeader(buf).(timeStamp := timestamp, sequenceNumber := sequence)
            && DecodePayload(p, |block|) == block
            && p[10..HEADER_SIZE] == buf[10..HEADER_SIZE]
            && p[SampleOffset(|block|)..] == buf[SampleOffset(|block|)..]
  {
    var w := WithBlock(buf, block);
    var p := Stamped(w, timestamp, sequence);
    WithBlockLayout(buf, block);
    StampedHeader(w, timestamp, sequence);
    assert w[..HEADER_SIZE] == buf[..HEADER_SIZE];
    DecodeHeaderReadsPrefixOnly(w, buf);
    assert forall j :: 10 <= j < HEADER_SIZE ==> p[j] == w[..HEADER_SIZE][j];
    forall i | 0 <= i < |block|
      ensures SampleAt(p, i) == block[i]
    {
      assert p[SampleOffset(i)..SampleOffset(i) + 2] == w[SampleOffset(i)..SampleOffset(i) + 2];
      assert SampleAt(w, i) == DecodePayload(w, |block|)[i];
    }
  }

  /** Streaming from the handshake template keeps every packet acceptable
      to a 48000 Hz peer: only timestamp, sequence and payload change. */
  lemma StreamedFromTemplateAccepted(t0: u64, block: seq<i16>, timestamp: u64, sequence: u16)
    requires |block| <= PAYLOAD_SAMPLES
    ensures var p := Stamped(WithBlock(Template(t0), block), timestamp, sequence);
            DecodeHeader(p) == TemplateHeader(timestamp).(sequenceNumber := sequence)
            && VerifyConnectionParams(DecodeHeader(p), 48000).Accepted?
  {
    StreamedPacket(Template(t0), block, timestamp, sequence);
    TemplateAcceptedIff(t0, 48000);
    TemplateBytes(t0);
    PacketRoundTrip(Packet(TemplateHeader(t0), seq(PAYLOAD_SAMPLES, _ => 0)));
  }

  /** The inbound path of the peer plays back exactly the block the
      outbound path encoded, whatever its buffer held before, when both
      sides run the same period length. */
  lemma OutboundInboundRoundTrip(buf: seq<byte>, block: seq<i16>, timestamp: u64, sequence: u16, peerBuf: seq<byte>)
    requires |buf| == PACKET_SIZE && |block| <= PAYLOAD_SAMPLES && |peerBuf| == PACKET_SIZE
    ensures DecodePayload(Received(peerBuf, Stamped(WithBlock(buf, block), timestamp, sequence)), |block|) == block
  {
    var p := Stamped(WithBlock(buf, block), timestamp, sequence);
    StreamedPacket(buf, block, timestamp, sequence);
    assert Received(peerBuf, p) == p;
  }

  /** The network-to-audio path: one reused 528-byte receive buffer. */
  class InboundPath {
    var buf: array<byte>

    ghost predicate Valid()
      reads this
    {
      buf.Length == PACKET_SIZE
    }

    constructor ()
      ensures Valid() && fresh(buf) && buf[..] == Zeros(PACKET_SIZE)
    {
      buf := new byte[PACKET_SIZE](_ => 0);
    }

    /** One inbound callback: receive a datagram into the buffer, then
        set output sample i to the LE i16 at bytes 16 + 2i and 17 + 2i.
        A period longer than 256 samples runs off the end of the buffer:
        the first 256 samples are written, then the callback panics. */
    method Receive(datagram: seq<byte>, out: array<i16>) returns (outcome: Option<Panic>)
      requires Valid()
      modifies buf, out
      ensures Valid()
      ensures buf[..] == Received(old(buf[..]), datagram)
      ensures outcome == (if out.Length <= PAYLOAD_SAMPLES then None else Some(SliceOutOfRange))
      ensures out.Length <= PAYLOAD_SAMPLES ==> out[..] == DecodePayload(buf[..], out.Length)
      ensures out.Length > PAYLOAD_SAMPLES ==>
        out[..PAYLOAD_SAMPLES] == DecodePayload(buf[..], PAYLOAD_SAMPLES)
        && out[PAYLOAD_SAMPLES..] == old(out[PAYLOAD_SAMPLES..])
    {
      var n := if |datagram| < PACKET_SIZE then |datagram| else PACKET_SIZE;
      forall j | 0 <= j < n {
        buf[j] := datagram[j];
      }
      assert buf[..] == Received(old(buf[..]), datagram);
      var count := HEADER_SIZE;
      var i := 0;
      while i < out.Length
        invariant 0 <= i <= out.Length && i <= PAYLOAD_SAMPLES
        invariant count == SampleOffset(i)
        invariant out[..i] == DecodePayload(buf[..], i)
        invariant out[i..] == old(out[i..])
        invariant buf[..] == Received(old(buf[..]), datagram)
      {
        if count + 2 > PACKET_SIZE {
          return Some(SliceOutOfRange);
        }
        out[i] := I16FromLe(buf[count..count + 2]);
        DecodePayloadPrefix(buf[..], i);
        assert out[..i + 1] == out[..i] + [out[i]];
        count := count + 2;
        i := i + 1;
      }
      assert out[..] == out[..i];
      outcome := None;
    }
  }

  /** What one outbound callback hands to the socket. */
  datatype Sent = Sent(dest: SocketAddr, bytes: seq<byte>)

  /** What the packet `s` handed to the socket carries: it goes to the
      peer, has 528 bytes, the LE timestamp at 0..8, the LE sequence number
      at 8..10, the header bytes `fixed` at 10..16 and `block` as payload. */
  predicate SentAs(s: Sent, peer: SocketAddr, timestamp: u64, sequence: int, fixed: seq<byte>, block: seq<i16>)
  {
    && s.dest == peer
    && |s.bytes| == PACKET_SIZE
    && s.bytes[..8] == U64ToLe(timestamp)
    && U16FromLe(s.bytes[8..10]) == sequence
    && s.bytes[10..HEADER_SIZE] == fixed
    && |block| <= PAYLOAD_SAMPLES
    && DecodePayload(s.bytes, |block|) == block
  }

  /** The audio-to-network path: the outgoing buffer, reused from the
      handshake template, and the outgoing sequence counter. */
  class OutboundPath {
    const peer: SocketAddr
    var outgoing: array<byte>
    var sequence: u16

    ghost predicate Valid()
      reads this
    {
      outgoing.Length == PACKET_SIZE
    }

    /** The state when streaming starts: the buffer holds the first packet
        sent during the handshake and the counter is 1. */
    constructor (peer: SocketAddr, template: seq<byte>)
      requires |template| == PACKET_SIZE
      ensures Valid() && fresh(outgoing)
      ensures this.peer == peer && outgoing[..] == template && sequence == 1
    {
      this.peer := peer;
      outgoing := new byte[PACKET_SIZE](j requires 0 <= j < PACKET_SIZE => template[j]);
      sequence := 1;
    }

    /** The payload loop of the outbound callback: sample i's LE bytes go
        to 16 + 2i. A block longer than 256 samples stops after the 256th
        sample, where the source's slice would run off the buffer. */
    method WriteBlock(block: seq<i16>) returns (complete: bool)
      requires Valid()
      modifies outgoing
      ensures complete <==> |block| <= PAYLOAD_SAMPLES
      ensures complete ==> outgoing[..] == WithBlock(old(outgoing[..]), block)
      ensures !complete ==> outgoing[..] == WithBlock(old(outgoing[..]), block[..PAYLOAD_SAMPLES])
      ensures outgoing[..HEADER_SIZE] == old(outgoing[..HEADER_SIZE])
    {
      ghost var start := outgoing[..];
      var count := HEADER_SIZE;
      var i := 0;
      while i < |block|
        invariant 0 <= i <= |block| && i <= PAYLOAD_SAMPLES
        invariant count == SampleOffset(i)
        invariant outgoing[..] == WithBlock(start, block[..i])
        invariant outgoing[..HEADER_SIZE] == start[..HEADER_SIZE]
      {
        if count + 2 > PACKET_SIZE {
          return false;
        }
        var bytes := I16ToLe(block[i]);
        WithBlockStep(start, block, i);
        outgoing[count] := bytes[0];
        outgoing[count + 1] := bytes[1];
        count := count + 2;
        i := i + 1;
      }
      assert block[..i] == block;
      complete := true;
    }

    /** One outbound callback: write the block's samples at 16 + 2i, take
        the timestamp, increment the counter, write timestamp and counter
        at 0..8 and 8..10, and send the whole buffer to the peer.
        A block longer than 256 samples panics after the 256th sample; a
        counter at 65535 panics on the increment, after the payload. */
    method Send(block: seq<i16>, timestamp: u64) returns (r: Result<Sent, Panic>)
      requires Valid()
      modifies outgoing, this`sequence
      ensures Valid()
      ensures outgoing[10..HEADER_SIZE] == old(outgoing[10..HEADER_SIZE])
      ensures |block| > PAYLOAD_SAMPLES ==>
        r == Failure(SliceOutOfRange) && sequence == old(sequence)
        && outgoing[..] == WithBlock(old(outgoing[..]), block[..PAYLOAD_SAMPLES])
      ensures |block| <= PAYLOAD_SAMPLES && old(sequence) == 0xFFFF ==>
        r == Failure(AddOverflow) && sequence == old(sequence)
        && outgoing[..] == WithBlock(old(outgoing[..]), block)
      ensures |block| <= PAYLOAD_SAMPLES && old(sequence) < 0xFFFF ==>
        sequence == old(sequence) + 1
        && outgoing[..] == Stamped(WithBlock(old(outgoing[..]), block), timestamp, sequence)
        && r == Success(Sent(peer, outgoing[..]))
        && SentAs(r.value, peer, timestamp, sequence, old(outgoing[10..HEADER_SIZE]), block)
    {
      var complete := WriteBlock(block);
      if !complete {
        return Failure(SliceOutOfRange);
      }
      var timestampBytes := U64ToLe(timestamp);
      if sequence == 0xFFFF {
        return Failure(AddOverflow);
      }
      sequence := sequence + 1;
      var sequenceBytes := U16ToLe(sequence);
      ghost var before := outgoing[..];
      forall j | 0 <= j < 8 {
        outgoing[j] := timestampBytes[j];
      }
      outgoing[8] := sequenceBytes[0];
      outgoing[9] := sequenceBytes[1];
      assert outgoing[..8] == timestampBytes;
      assert outgoing[8..10] == sequenceBytes;
      assert outgoing[10..] == before[10..];
      assert outgoing[..] == outgoing[..8] + outgoing[8..10] + outgoing[10..];
      StreamedPacket(old(outgoing[..]), block, timestamp, sequence);
      U16RoundTrip(sequence);
      r := Success(Sent(peer, outgoing[..]));
    }
  }

  /** The JACK server invokes the outbound callback once per period; this
      runs it over a sequence of periods, stopping at the first panic.
      Starting from the post-handshake state (counter 1), the k-th packet
      sent, counting from 1, carries sequence number k + 1. */
  method StreamOutbound(path: OutboundPath, blocks: seq<seq<i16>>, stamps: seq<u64>)
      returns (sent: seq<Sent>, stop: Option<Panic>)
    requires path.Valid() && |stamps| == |blocks|
    modifies path.outgoing, path`sequence
    ensures path.Valid()
    ensures stop.None? <==> |sent| == |blocks|
    ensures |sent| <= |blocks|
    ensures path.sequence == old(path.sequence) + |sent|
    ensures path.outgoing[10..HEADER_SIZE] == old(path.outgoing[10..HEADER_SIZE])
    ensures stop.None? ==>
      path.outgoing[..] == if |sent| == 0 then old(path.outgoing[..]) else sent[|sent| - 1].bytes
    ensures stop == Some(SliceOutOfRange) <==> |sent| < |blocks| && |blocks[|sent|]| > PAYLOAD_SAMPLES
    ensures stop == Some(AddOverflow) <==>
      |sent| < |blocks| && |blocks[|sent|]| <= PAYLOAD_SAMPLES && old(path.sequence) + |sent| == 0xFFFF
    ensures forall k :: 0 <= k < |sent| ==>
      SentAs(sent[k], path.peer, stamps[k], old(path.sequence) + k + 1, old(path.outgoing[10..HEADER_SIZE]), blocks[k])
  {
    sent := [];
    var i := 0;
    while i < |blocks|
      invariant 0 <= i <= |blocks| && |sent| == i
      invariant path.Valid()
      invariant path.sequence == old(path.sequence) + i
      invariant path.outgoing[10..HEADER_SIZE] == old(path.outgoing[10..HEADER_SIZE])
      invariant path.outgoing[..] == if i == 0 then old(path.outgoing[..]) else sent[i - 1].bytes
      invariant forall k :: 0 <= k < |sent| ==>
        SentAs(sent[k], path.peer, stamps[k], old(path.sequence) + k + 1, old(path.outgoing[10..HEADER_SIZE]), blocks[k])
    {
      var r := path.Send(blocks[i], stamps[i]);
      if r.Failure? {
        return sent, Some(r.error);
      }
      sent := sent + [r.value];
      i := i + 1;
    }
    stop := None;
  }
}

=== FILE: echo_server.dfy ===
/**
 * The standalone echo server of `udpserver.rs`: it receives one packet,
 * answers with a mirror of its header, then for every further datagram
 * restamps and re-sends that same reply to whoever sent the datagram.
 *
 * Two reused 528-byte buffers (incoming and outgoing) and a sequence
 * counter make up its state. Timestamps are parameters; a panic is a
 * `Failure`.
 */
module EchoServer {
  import opened Wire
  import opened Wrappers
  import opened SamplingRate
  import opened PacketLayout
  import opened Handshake

  /** The first reply, as a value: the LE timestamp, sequence 0, buffer size
      128, bytes 12..16 copied from the received packet, a zero payload. */
  function MirrorReply(received: seq<byte>, timestamp: u64): (r: seq<byte>)
    requires |received| == PACKET_SIZE
    ensures |r| == PACKET_SIZE
  {
    U64ToLe(timestamp) + U16ToLe(0) + U16ToLe(128) + received[12..HEADER_SIZE] + Zeros(PACKET_SIZE - HEADER_SIZE)
  }

  /** The mirror reply decodes to sequence 0, 128 frames and the sender's
      rate code, bit resolution, channel count and connection mode, over a
      silent payload. */
  lemma MirrorReplyDecodes(received: seq<byte>, timestamp: u64)
    requires |received| == PACKET_SIZE
    ensures DecodeHeader(MirrorReply(received, timestamp))
         == Header(timestamp, 0, 128, FromCode(received[12]), received[13], received[14], received[15])
    ensures DecodePayload(MirrorReply(received, timestamp), PAYLOAD_SAMPLES) == seq(PAYLOAD_SAMPLES, _ => 0)
  {
    var r := MirrorReply(received, timestamp);
    assert r[0..8] == U64ToLe(timestamp);
    assert r[8..10] == U16ToLe(0);
    assert r[10..12] == U16ToLe(128);
    U64RoundTrip(timestamp);
    U16RoundTrip(0);
    U16RoundTrip(128);
    forall i | 0 <= i < PAYLOAD_SAMPLES
      ensures SampleAt(r, i) == 0
    {
      assert r[SampleOffset(i)..SampleOffset(i) + 2] == U16ToLe(0) by {
        U16ToLeBytes(0);
      }
    }
  }

  /** Mirroring the client's first packet gives exactly the packet the
      client itself sends first, so the client accepts it iff it runs at
      48000 Hz. */
  lemma MirrorOfTemplate(t0: u64, timestamp: u64, deviceRate: nat)
    ensures MirrorReply(Template(t0), timestamp) == Template(timestamp)
    ensures VerifyConnectionParams(DecodeHeader(MirrorReply(Template(t0), timestamp)), deviceRate).Accepted?
        <==> deviceRate == 48000
  {
    TemplateBytes(t0);
    TemplateBytes(timestamp);
    U16ToLeBytes(0);
    U16ToLeBytes(128);
    assert Template(t0)[12..HEADER_SIZE] == [3, 16, 1, 0];
    TemplateAcceptedIff(timestamp, deviceRate);
  }

  /** The payload reader the loop calls, `print_sample_data_from_buf_both`
      (its sibling `print_sample_data_from_buf` runs the same loop): reads
      buffer_size as the LE u16 at 10..12, then sample x from bytes 16 + 2x
      and 17 + 2x for every x < buffer_size. A buffer_size past the end of
      the buffer (over 256 for the 528-byte buffer, where the packed
      `data[x]` index fails at the same x) panics once x reaches the end;
      the samples read before that are returned with `complete` false. */
  method PayloadSamples(buf: seq<byte>) returns (samples: seq<i16>, complete: bool)
    requires |buf| >= HEADER_SIZE
    ensures var bufferSize := U16FromLe(buf[10..12]);
            var room := (|buf| - HEADER_SIZE) / 2;
            && (complete <==> bufferSize <= room)
            && samples == DecodePayload(buf, if complete then bufferSize else room)
  {
    var bufferSize := U16FromLe(buf[10..12]);
    samples := [];
    var x := 0;
    while x < bufferSize
      invariant 0 <= x <= bufferSize
      invariant SampleOffset(x) <= |buf|
      invariant samples == DecodePayload(buf, x)
    {
      if x * 2 + 18 > |buf| {
        return samples, false;
      }
      DecodePayloadPrefix(buf, x);
      samples := samples + [I16FromLe(buf[x * 2 + 16..x * 2 + 18])];
      x := x + 1;
    }
    complete := true;
  }

  /** The first reply as `main` builds it: a zeroed buffer, the timestamp
      copied byte by byte, then sequence 0, buffer size 128 and bytes
      12..16 of the received packet. */
  method BuildMirrorReply(received: seq<byte>, timestamp: u64) returns (reply: array<byte>)
    requires |received| == PACKET_SIZE
    ensures fresh(reply) && reply[..] == MirrorReply(received, timestamp)
  {
    reply := new byte[PACKET_SIZE](_ => 0);
    var timestampBytes := U64ToLe(timestamp);
    for x := 0 to 8
      invariant forall j :: 0 <= j < x ==> reply[j] == timestampBytes[j]
      invariant forall j :: x <= j < PACKET_SIZE ==> reply[j] == 0
    {
      reply[x] := timestampBytes[x];
    }
    reply[8] := U16ToLe(0)[0];
    reply[9] := U16ToLe(0)[1];
    reply[10] := U16ToLe(128)[0];
    reply[11] := U16ToLe(128)[1];
    reply[12] := received[12];
    reply[13] := received[13];
    reply[14] := received[14];
    reply[15] := received[15];
    assert reply[..8] == timestampBytes;
    assert reply[8..10] == U16ToLe(0);
    assert reply[10..12] == U16ToLe(128);
    assert reply[12..HEADER_SIZE] == received[12..HEADER_SIZE];
    assert reply[HEADER_SIZE..] == Zeros(PACKET_SIZE - HEADER_SIZE);
    assert reply[..] == reply[..8] + reply[8..10] + reply[10..12] + reply[12..HEADER_SIZE] + reply[HEADER_SIZE..];
  }

  /** One reply handed to the socket. */
  datatype Reply = Reply(dest: SocketAddr, bytes: seq<byte>)

  /** What a reply of the loop carries: it goes to `dest`, has 528 bytes,
      the LE timestamp at 0..8, the LE sequence number at 8..10 and the
      bytes `fixed` from 10 on. */
  predicate RepliedAs(r: Reply, dest: SocketAddr, timestamp: u64, sequence: int, fixed: seq<byte>)
  {
    && r.dest == dest
    && |r.bytes| == PACKET_SIZE
    && r.bytes[..8] == U64ToLe(timestamp)
    && U16FromLe(r.bytes[8..10]) == sequence
    && r.bytes[10..] == fixed
  }

  /** The receive buffer after `recv_from` has taken each datagram of `ds`
      in turn. */
  function AfterReceives(buf: seq<byte>, ds: seq<Datagram>): (r: seq<byte>)
    ensures |r| == |buf|
    decreases |ds|
  {
    if ds == [] then buf else Received(AfterReceives(buf, ds[..|ds| - 1]), ds[|ds| - 1].bytes)
  }

  /** The buffer_size field the receive buffer holds once the first k
      datagrams of `ds` have arrived. */
  function AnnouncedAfter(buf: seq<byte>, ds: seq<Datagram>, k: nat): (frames: u16)
    requires |buf| == PACKET_SIZE && k <= |ds|
  {
    U16FromLe(AfterReceives(buf, ds[..k])[10..12])
  }

  /** Taking one more datagram is one more `Received` on the buffer the
      earlier ones left, and its buffer_size field is what that buffer holds. */
  lemma AfterReceivesStep(buf: seq<byte>, ds: seq<Datagram>, i: nat)
    requires |buf| == PACKET_SIZE && i < |ds|
    ensures AfterReceives(buf, ds[..i + 1]) == Received(AfterReceives(buf, ds[..i]), ds[i].bytes)
  {
    assert ds[..i + 1][..i] == ds[..i];
  }

  /** The same step seen from the buffer `now` that receiving datagram i
      produced: it is the buffer after the first i + 1 datagrams, and its
      buffer_size field is what those datagrams announced last. */
  lemma ReceiveStep(buf: seq<byte>, ds: seq<Datagram>, i: nat, now: seq<byte>)
    requires |buf| == PACKET_SIZE && i < |ds|
    requires now == Received(AfterReceives(buf, ds[..i]), ds[i].bytes)
    ensures now == AfterReceives(buf, ds[..i + 1])
    ensures AnnouncedAfter(buf, ds, i + 1) == U16FromLe(now[10..12])
  {
    AfterReceivesStep(buf, ds, i);
  }

  /** One more answered datagram extends what the loop knows about the
      replies so far: every answered datagram announced at most 256 frames,
      and reply k carries stamp k and sequence number counter + k + 1. */
  lemma RepliesExtend(start: seq<byte>, inputs: seq<Datagram>, stamps: seq<u64>, counter: int, fixed: seq<byte>,
                      replies: seq<Reply>, reply: Reply)
    requires |start| == PACKET_SIZE && |replies| < |inputs| == |stamps|
    requires forall k :: 0 < k <= |replies| ==> AnnouncedAfter(start, inputs, k) <= PAYLOAD_SAMPLES
    requires forall k :: 0 <= k < |replies| ==>
      RepliedAs(replies[k], inputs[k].src, stamps[k], counter + k + 1, fixed)
    requires AnnouncedAfter(start, inputs, |replies| + 1) <= PAYLOAD_SAMPLES
    requires RepliedAs(reply, inputs[|replies|].src, stamps[|replies|], counter + |replies| + 1, fixed)
    ensures forall k :: 0 < k <= |replies + [reply]| ==> AnnouncedAfter(start, inputs, k) <= PAYLOAD_SAMPLES
    ensures forall k :: 0 <= k < |replies + [reply]| ==>
      RepliedAs((replies + [reply])[k], inputs[k].src, stamps[k], counter + k + 1, fixed)
  {
  }

  class Server {
    var buf: array<byte>
    var outgoing: array<byte>
    var sequence: u16
    /** The first reply, which start-up sends back to the first datagram's source. */
    const firstReply: Reply

    ghost predicate Valid()
      reads this
    {
      buf.Length == PACKET_SIZE && outgoing.Length == PACKET_SIZE && buf != outgoing
    }

    /** Start-up: receive the first datagram into a zeroed buffer and build
        the mirror reply (which `main` sends back to the datagram's source)
        with the counter at 0. */
    constructor (first: Datagram, timestamp: u64)
      ensures Valid() && fresh(buf) && fresh(outgoing)
      ensures buf[..] == Received(Zeros(PACKET_SIZE), first.bytes)
      ensures outgoing[..] == MirrorReply(buf[..], timestamp)
      ensures sequence == 0
      ensures firstReply == Reply(first.src, outgoing[..])
    {
      var incoming := new byte[PACKET_SIZE](_ => 0);
      var n := if |first.bytes| < PACKET_SIZE then |first.bytes| else PACKET_SIZE;
      forall j | 0 <= j < n {
        incoming[j] := first.bytes[j];
      }
      assert incoming[..] == Received(Zeros(PACKET_SIZE), first.bytes);
      var reply := BuildMirrorReply(incoming[..], timestamp);
      buf := incoming;
      outgoing := reply;
      sequence := 0;
      firstReply := Reply(first.src, reply[..]);
    }

    /** One turn of the `while true` loop: receive a datagram, read its
        payload (panicking if its buffer_size exceeds 256), write the new
        timestamp at 0..8, increment the counter (panicking at 65535),
        write it at 8..10 and send the buffer to the datagram's source. */
    method Echo(d: Datagram, timestamp: u64) returns (r: Result<Reply, Panic>)
      requires Valid()
      modifies buf, outgoing, this`sequence
      ensures Valid()
      ensures buf[..] == Received(old(buf[..]), d.bytes)
      ensures outgoing[10..] == old(outgoing[10..])
      ensures U16FromLe(buf[10..12]) > PAYLOAD_SAMPLES ==>
        r == Failure(SliceOutOfRange) && outgoing[..] == old(outgoing[..]) && sequence == old(sequence)
      ensures U16FromLe(buf[10..12]) <= PAYLOAD_SAMPLES && old(sequence) == 0xFFFF ==>
        r == Failure(AddOverflow) && sequence == old(sequence)
        && outgoing[..] == U64ToLe(timestamp) + old(outgoing[8..])
      ensures U16FromLe(buf[10..12]) <= PAYLOAD_SAMPLES && old(sequence) < 0xFFFF ==>
        sequence == old(sequence) + 1
        && outgoing[..] == Stamped(old(outgoing[..]), timestamp, sequence)
        && r == Success(Reply(d.src, outgoing[..]))
        && RepliedAs(r.value, d.src, timestamp, sequence, old(outgoing[10..]))
    {
      var n := if |d.bytes| < PACKET_SIZE then |d.bytes| else PACKET_SIZE;
      forall j | 0 <= j < n {
        buf[j] := d.bytes[j];
      }
      assert buf[..] == Received(old(buf[..]), d.bytes);
      var _, complete := PayloadSamples(buf[..]);
      if !complete {
        return Failure(SliceOutOfRange);
      }
      var timestampBytes := U64ToLe(timestamp);
      for x := 0 to 8
        modifies outgoing
        invariant forall j :: 0 <= j < x ==> outgoing[j] == timestampBytes[j]
        invariant forall j :: x <= j < PACKET_SIZE ==> outgoing[j] == old(outgoing[j])
      {
        outgoing[x] := timestampBytes[x];
      }
      assert outgoing[..8] == timestampBytes;
      assert outgoing[8..] == old(outgoing[8..]);
      assert outgoing[..] == outgoing[..8] + outgoing[8..];
      if sequence == 0xFFFF {
        return Failure(AddOverflow);
      }
      sequence := sequence + 1;
      ghost var before := outgoing[..];
      outgoing[8] := U16ToLe(sequence)[0];
      outgoing[9] := U16ToLe(sequence)[1];
      assert outgoing[..8] == timestampBytes;
      assert outgoing[8..10] == U16ToLe(sequence);
      assert outgoing[10..] == old(outgoing[10..]);
      assert outgoing[..] == outgoing[..8] + outgoing[8..10] + outgoing[10..];
      U16RoundTrip(sequence);
      r := Success(Reply(d.src, outgoing[..]));
    }

    /** The `while true` loop over a finite run of datagrams, stopping at
        the first panic. Reply k (from 0) goes to the source of datagram k,
        carries timestamp k and sequence number old counter + k + 1, and
        repeats bytes 10..528 of the buffer as it stood before the loop.
        Every datagram answered announced at most 256 frames; a stop leaves
        the datagram that caused it in the receive buffer. */
    method Serve(inputs: seq<Datagram>, stamps: seq<u64>) returns (replies: seq<Reply>, stop: Option<Panic>)
      requires Valid() && |stamps| == |inputs|
      modifies buf, outgoing, this`sequence
      ensures Valid()
      ensures |replies| <= |inputs|
      ensures stop.None? <==> |replies| == |inputs|
      ensures sequence == old(sequence) + |replies|
      ensures buf[..] == AfterReceives(old(buf[..]), inputs[..if stop.Some? then |replies| + 1 else |replies|])
      ensures forall k :: 0 < k <= |replies| ==>
        AnnouncedAfter(old(buf[..]), inputs, k) <= PAYLOAD_SAMPLES
      ensures outgoing[10..] == old(outgoing[10..])
      ensures stop.None? ==>
        outgoing[..] == if |replies| == 0 then old(outgoing[..]) else replies[|replies| - 1].bytes
      ensures stop == Some(SliceOutOfRange) ==> U16FromLe(buf[10..12]) > PAYLOAD_SAMPLES
      ensures stop == Some(AddOverflow) ==>
        U16FromLe(buf[10..12]) <= PAYLOAD_SAMPLES && old(sequence) + |replies| == 0xFFFF
      ensures forall k :: 0 <= k < |replies| ==>
        RepliedAs(replies[k], inputs[k].src, stamps[k], old(sequence) + k + 1, old(outgoing[10..]))
    {
      replies := [];
      ghost var start, initial, fixed, counter := buf[..], outgoing[..], outgoing[10..], sequence;
      var i := 0;
      while i < |inputs|
        invariant 0 <= i <= |inputs| && |replies| == i
        invariant Valid()
        invariant sequence == counter + i
        invariant buf[..] == AfterReceives(start, inputs[..i])
        invariant outgoing[10..] == fixed
        invariant i == 0 ==> outgoing[..] == initial
        invariant i > 0 ==> outgoing[..] == replies[i - 1].bytes
        invariant forall k :: 0 < k <= |replies| ==>
          AnnouncedAfter(start, inputs, k) <= PAYLOAD_SAMPLES
        invariant forall k :: 0 <= k < |replies| ==>
          RepliedAs(replies[k], inputs[k].src, stamps[k], counter + k + 1, fixed)
      {
        var r := Echo(inputs[i], stamps[i]);
        ReceiveStep(start, inputs, i, buf[..]);
        if r.Failure? {
          return replies, Some(r.error);
        }
        RepliesExtend(start, inputs, stamps, counter, fixed, replies, r.value);
        replies := replies + [r.value];
        i := i + 1;
      }
      stop := None;
    }
  }

  /** Every reply of the loop, after a first packet that was the client's
      template, is the template restamped: a 48000 Hz client accepts it. */
  lemma EchoRepliesAccepted(t0: u64, t1: u64, timestamp: u64, sequence: u16)
    ensures var reply := Stamped(MirrorReply(Template(t0), t1), timestamp, sequence);
            DecodeHeader(reply) == TemplateHeader(timestamp).(sequenceNumber := sequence)
            && VerifyConnectionParams(DecodeHeader(reply), 48000).Accepted?
  {
    MirrorOfTemplate(t0, t1, 48000);
    StampedHeader(Template(t1), timestamp, sequence);
    TemplateAcceptedIff(t1, 48000);
    PacketRoundTrip(Packet(TemplateHeader(t1), seq(PAYLOAD_SAMPLES, _ => 0)));
  }
}

=== FILE: handshake.dfy ===
/**
 * Connection set-up of `jacktrip_connect`: the parameter check applied
 * to the first packet received, the 528-byte template every outgoing
 * packet starts from, and the order in which client and server send and
 * receive that first packet.
 *
 * Socket calls become entries of a trace; the wall-clock timestamp is a
 * parameter; a failed `assert!` becomes a `Rejected` verdict.
 */
module Handshake {
  import opened Wire
  import opened SamplingRate
  import opened PacketLayout

  /** The four checks of `verify_connection_params`, in the order they run. */
  datatype ParamError =
    | RateMismatch(advertised: nat, device: nat)
    | UnsupportedBitResolution(bits: byte)
    | UnsupportedChannels(channels: byte)
    | UnsupportedBufferSize(frames: u16)

  datatype Verdict = Accepted | Rejected(error: ParamError)

  const BIT_RESOLUTION: byte := 16
  const NUM_CHANNELS: byte := 1
  const BUFFER_SIZE: u16 := 128

  /** Accepts a peer's header exactly when its rate code names the local
      device rate, and it carries 16-bit, mono, 128-frame audio. The first
      check that fails is the one reported. */
  function VerifyConnectionParams(h: Header, sampleRate: nat): (v: Verdict)
    ensures v.Accepted? <==>
      AsNumeric(h.samplingRate) == sampleRate && h.bitResolution == 16
      && h.numChannels == 1 && h.bufferSize == 128
    ensures v == Rejected(RateMismatch(AsNumeric(h.samplingRate), sampleRate))
        <==> AsNumeric(h.samplingRate) != sampleRate
    ensures v == Rejected(UnsupportedBitResolution(h.bitResolution))
        <==> AsNumeric(h.samplingRate) == sampleRate && h.bitResolution != 16
    ensures v == Rejected(UnsupportedChannels(h.numChannels))
        <==> AsNumeric(h.samplingRate) == sampleRate && h.bitResolution == 16 && h.numChannels != 1
    ensures v == Rejected(UnsupportedBufferSize(h.bufferSize))
        <==> AsNumeric(h.samplingRate) == sampleRate && h.bitResolution == 16 && h.numChannels == 1
             && h.bufferSize != 128
  {
    if AsNumeric(h.samplingRate) != sampleRate then Rejected(RateMismatch(AsNumeric(h.samplingRate), sampleRate))
    else if h.bitResolution != BIT_RESOLUTION then Rejected(UnsupportedBitResolution(h.bitResolution))
    else if h.numChannels != NUM_CHANNELS then Rejected(UnsupportedChannels(h.numChannels))
    else if h.bufferSize != BUFFER_SIZE then Rejected(UnsupportedBufferSize(h.bufferSize))
    else Accepted
  }

  /** The header of the first packet: sequence 0, 128 frames, rate code 3,
      16 bits, one channel, connection mode 0. */
  function TemplateHeader(timestamp: u64): (h: Header)
    ensures h.timeStamp == timestamp && h.sequenceNumber == 0
    ensures VerifyConnectionParams(h, 48000).Accepted?
  {
    Header(timestamp, 0, BUFFER_SIZE, FromCode(3), BIT_RESOLUTION, NUM_CHANNELS, 0)
  }

  /** The first packet as a value: that header and a silent payload. */
  function Template(timestamp: u64): (r: seq<byte>)
    ensures |r| == PACKET_SIZE
    ensures DecodePacket(r) == Packet(TemplateHeader(timestamp), seq(PAYLOAD_SAMPLES, _ => 0))
  {
    PacketRoundTrip(Packet(TemplateHeader(timestamp), seq(PAYLOAD_SAMPLES, _ => 0)));
    EncodePacket(Packet(TemplateHeader(timestamp), seq(PAYLOAD_SAMPLES, _ => 0)))
  }

  /** The template's bytes: the LE timestamp, then 0, 0, 128, 0, 3, 16, 1, 0,
      then 512 zero bytes. */
  lemma TemplateBytes(timestamp: u64)
    ensures Template(timestamp) == U64ToLe(timestamp) + [0, 0, 128, 0, 3, 16, 1, 0] + Zeros(512)
  {
    U16ToLeBytes(0);
    U16ToLeBytes(128);
    EncodeSilence(PAYLOAD_SAMPLES);
  }

  /** `send_first_packet`, up to the send: fills a zeroed 528-byte buffer
      by index, the timestamp at 0..8 and the fixed fields at 8..16. */
  method SendFirstPacket(timestamp: u64) returns (outgoing: array<byte>)
    ensures fresh(outgoing)
    ensures outgoing[..] == Template(timestamp)
    ensures DecodePacket(outgoing[..]) == Packet(TemplateHeader(timestamp), seq(PAYLOAD_SAMPLES, _ => 0))
  {
    var timestampBytes, sequenceBytes, framesBytes := U64ToLe(timestamp), U16ToLe(0), U16ToLe(128);
    U16ToLeBytes(0);
    U16ToLeBytes(128);
    outgoing := new byte[PACKET_SIZE](_ => 0);
    var k := 0;
    while k < 8
      invariant 0 <= k <= 8
      invariant forall j :: 0 <= j < k ==> outgoing[j] == timestampBytes[j]
      invariant forall j :: k <= j < PACKET_SIZE ==> outgoing[j] == 0
    {
      outgoing[k] := timestampBytes[k];
      k := k + 1;
    }
    assert outgoing[..8] == timestampBytes;
    assert outgoing[HEADER_SIZE..] == Zeros(PACKET_SIZE - HEADER_SIZE);
    ghost var stamped := outgoing[..];
    // bytes 8 and 9 both take byte 0 of 0u16's encoding, which is 0 either way
    outgoing[8] := sequenceBytes[0];
    outgoing[9] := sequenceBytes[0];
    outgoing[10] := framesBytes[0];
    outgoing[11] := framesBytes[1];
    outgoing[12] := 3;
    outgoing[13] := 16;
    outgoing[14] := 1;
    outgoing[15] := 0;
    assert outgoing[..8] == stamped[..8];
    assert outgoing[8..16] == [0, 0, 128, 0, 3, 16, 1, 0];
    assert outgoing[HEADER_SIZE..] == stamped[HEADER_SIZE..];
    assert outgoing[..] == outgoing[..8] + outgoing[8..16] + outgoing[16..];
    TemplateBytes(timestamp);
  }

  /** The template passes the check on the receiving side exactly when
      that side's device runs at 48000 Hz. */
  lemma TemplateAcceptedIff(timestamp: u64, deviceRate: nat)
    ensures VerifyConnectionParams(DecodeHeader(Template(timestamp)), deviceRate).Accepted?
        <==> deviceRate == 48000
  {
    var p := Packet(TemplateHeader(timestamp), seq(PAYLOAD_SAMPLES, _ => 0));
    PacketRoundTrip(p);
    assert DecodeHeader(Template(timestamp)) == TemplateHeader(timestamp);
  }

  /** A header whose rate byte is unknown (7..255) is rejected whenever
      the device reports a real (positive) rate. */
  lemma UnknownCodeRejected(h: Header, code: byte, deviceRate: nat)
    requires code >= 7 && h.samplingRate == FromCode(code) && deviceRate > 0
    ensures VerifyConnectionParams(h, deviceRate) == Rejected(RateMismatch(0, deviceRate))
  {
    UnknownCodeHasNoRate(code, deviceRate);
  }

  /** A device at 88200 Hz rejects every header. */
  lemma Device88200RejectsAll(h: Header)
    ensures VerifyConnectionParams(h, 88200).Rejected?
  {
    var code := Discriminant(h.samplingRate);
    DiscriminantRoundTrip(h.samplingRate);
    No88200(code);
  }

  /** Socket addresses are opaque: an IP address and a port. */
  datatype SocketAddr = SocketAddr(ip: seq<byte>, port: u16)

  /** One datagram as `recv_from` returns it: its source and its bytes. */
  datatype Datagram = Datagram(src: SocketAddr, bytes: seq<byte>)

  /** The socket calls a run makes, in order. */
  datatype Action = SendTo(dest: SocketAddr, bytes: seq<byte>) | ReceiveFrom(src: SocketAddr, bytes: seq<byte>)

  datatype Role = Client(serverIp: seq<byte>) | Server

  /** What the set-up leaves for streaming: the address outbound packets
      go to and the outgoing buffer they are built in; or the failed check. */
  datatype Connection =
    | Connected(peer: SocketAddr, outgoing: seq<byte>, trace: seq<Action>)
    | Aborted(error: ParamError, trace: seq<Action>)

  /** The port the client sends its first packet to. */
  const SERVER_PORT: u16 := 4464

  /** `receive_first_packet`: the datagram lands in a fresh zeroed
      528-byte buffer, whose header is then checked. A datagram too short
      to reach byte 14 leaves a zero channel count there and is refused. */
  function CheckFirstPacket(first: Datagram, deviceRate: nat): (v: Verdict)
    ensures v.Accepted? <==>
      && |first.bytes| > 14
      && first.bytes[10] == 128 && first.bytes[11] == 0
      && AsNumeric(FromCode(first.bytes[12])) == deviceRate
      && first.bytes[13] == BIT_RESOLUTION && first.bytes[14] == NUM_CHANNELS
  {
    var r := Received(Zeros(PACKET_SIZE), first.bytes);
    U16FromLeValue(r[10..12]);
    VerifyConnectionParams(DecodeHeader(r), deviceRate)
  }

  /** The set-up sequence of `jacktrip_connect`. A client sends the template
      to the server's port 4464 first and then receives and checks; a server
      receives and checks first and only then sends the template back to the
      datagram's source. In both roles the peer used for streaming is the
      source of the received datagram. */
  function Connect(role: Role, first: Datagram, deviceRate: nat, timestamp: u64): (c: Connection)
    ensures c.Connected? <==> CheckFirstPacket(first, deviceRate).Accepted?
    ensures c.Connected? ==> c.peer == first.src && c.outgoing == Template(timestamp)
    ensures c.Aborted? ==> c.error == CheckFirstPacket(first, deviceRate).error
    ensures c.trace != []
    ensures role.Client? ==> c.trace == [SendTo(SocketAddr(role.serverIp, SERVER_PORT), Template(timestamp)),
                                         ReceiveFrom(first.src, first.bytes)]
    ensures role.Server? && c.Connected? ==> c.trace == [ReceiveFrom(first.src, first.bytes), SendTo(first.src, Template(timestamp))]
    ensures role.Server? && c.Aborted? ==> c.trace == [ReceiveFrom(first.src, first.bytes)]
  {
    var template := Template(timestamp);
    var received := ReceiveFrom(first.src, first.bytes);
    match role
    case Client(ip) =>
      var sent := SendTo(SocketAddr(ip, SERVER_PORT), template);
      (match CheckFirstPacket(first, deviceRate)
       case Accepted => Connected(first.src, template, [sent, received])
       case Rejected(e) => Aborted(e, [sent, received]))
    case Server =>
      match CheckFirstPacket(first, deviceRate)
      case Accepted => Connected(first.src, template, [received, SendTo(first.src, template)])
      case Rejected(e) => Aborted(e, [received])
  }

  /** Two copies of this program, one client and one server, both at
      48000 Hz, accept each other's first packet whatever their clocks
      read; at any other rate both abort. */
  lemma LoopbackHandshake(clientAddr: SocketAddr, serverIp: seq<byte>, rate: nat, tClient: u64, tServer: u64)
    ensures var server := Connect(Server, Datagram(clientAddr, Template(tClient)), rate, tServer);
            var client := Connect(Client(serverIp), Datagram(SocketAddr(serverIp, SERVER_PORT), Template(tServer)), rate, tClient);
            (server.Connected? <==> rate == 48000) && (client.Connected? <==> rate == 48000)
  {
    assert Received(Zeros(PACKET_SIZE), Template(tClient)) == Template(tClient);
    assert Received(Zeros(PACKET_SIZE), Template(tServer)) == Template(tServer);
    TemplateAcceptedIff(tClient, rate);
    TemplateAcceptedIff(tServer, rate);
  }

  /** A first packet that differs from the template only in announcing
      256 frames is refused for its buffer size, and no streaming starts. */
  lemma RejectsBufferSize256(src: SocketAddr, timestamp: u64, tLocal: u64, role: Role)
    ensures var h := TemplateHeader(timestamp).(bufferSize := 256);
            var c := Connect(role, Datagram(src, EncodePacket(Packet(h, seq(PAYLOAD_SAMPLES, _ => 0)))), 48000, tLocal);
            c == Aborted(UnsupportedBufferSize(256), c.trace)
  {
    var h := TemplateHeader(timestamp).(bufferSize := 256);
    var b := EncodePacket(Packet(h, seq(PAYLOAD_SAMPLES, _ => 0)));
    assert Received(Zeros(PACKET_SIZE), b) == b;
    PacketRoundTrip(Packet(h, seq(PAYLOAD_SAMPLES, _ => 0)));
  }
}

=== FILE: packet.dfy ===
/**
 * The JackTrip packet: a packed 16-byte header followed by 256 signed
 * 16-bit samples, 528 bytes in all, every multi-byte field little-endian.
 *
 * The source reads a header by reinterpreting the raw bytes as a packed
 * struct; this model decodes each field explicitly at its fixed offset.
 */
module PacketLayout {
  import opened Wire
  import opened SamplingRate

  const HEADER_SIZE: nat := 16
  /** The payload holds the largest supported JACK period: 256 samples. */
  const PAYLOAD_SAMPLES: nat := 256
  const PACKET_SIZE: nat := 528

  /** The header fields in declaration order. */
  datatype Field = TimeStamp | SequenceNumber | BufferSize | SamplingRateCode
                 | BitResolution | NumChannels | ConnectionMode

  const Fields: seq<Field> :=
    [TimeStamp, SequenceNumber, BufferSize, SamplingRateCode, BitResolution, NumChannels, ConnectionMode]

  /** Width in bytes of each field: u64, u16, u16, then four single bytes. */
  function Width(f: Field): (w: nat)
  {
    match f
    case TimeStamp => 8
    case SequenceNumber => 2
    case BufferSize => 2
    case _ => 1
  }

  /** Where the k-th field starts when the fields are packed without padding. */
  function PackedOffset(k: nat): (offset: nat)
    requires k <= |Fields|
  {
    if k == 0 then 0 else PackedOffset(k - 1) + Width(Fields[k - 1])
  }

  function Index(f: Field): (k: nat)
    ensures k < |Fields| && Fields[k] == f
  {
    match f
    case TimeStamp => 0
    case SequenceNumber => 1
    case BufferSize => 2
    case SamplingRateCode => 3
    case BitResolution => 4
    case NumChannels => 5
    case ConnectionMode => 6
  }

  function Offset(f: Field): (offset: nat)
  {
    PackedOffset(Index(f))
  }

  /** The packed fields fill exactly 16 bytes, at the offsets
      0, 8, 10, 12, 13, 14 and 15. */
  lemma {:induction false} PackedLayout()
    ensures PackedOffset(|Fields|) == HEADER_SIZE
    ensures Offset(TimeStamp) == 0 && Offset(SequenceNumber) == 8 && Offset(BufferSize) == 10
    ensures Offset(SamplingRateCode) == 12 && Offset(BitResolution) == 13
    ensures Offset(NumChannels) == 14 && Offset(ConnectionMode) == 15
  {
    assert PackedOffset(1) == 8;
    assert PackedOffset(2) == 10;
    assert PackedOffset(3) == 12;
    assert PackedOffset(4) == 13;
    assert PackedOffset(5) == 14;
    assert PackedOffset(6) == 15;
    assert PackedOffset(7) == 16;
  }

  /** The header fields. A sampling-rate byte is kept as the variant
      `From<u8>` gives for it. */
  datatype Header = Header(
    timeStamp: u64,
    sequenceNumber: u16,
    bufferSize: u16,
    samplingRate: SamplingRateT,
    bitResolution: byte,
    numChannels: byte,
    connectionMode: byte)

  /** The bytes a field of h occupies on the wire. */
  function FieldBytes(h: Header, f: Field): (r: seq<byte>)
    ensures |r| == Width(f)
  {
    match f
    case TimeStamp => U64ToLe(h.timeStamp)
    case SequenceNumber => U16ToLe(h.sequenceNumber)
    case BufferSize => U16ToLe(h.bufferSize)
    case SamplingRateCode => [Discriminant(h.samplingRate)]
    case BitResolution => [h.bitResolution]
    case NumChannels => [h.numChannels]
    case ConnectionMode => [h.connectionMode]
  }

  function EncodeHeader(h: Header): (r: seq<byte>)
    ensures |r| == HEADER_SIZE
  {
    U64ToLe(h.timeStamp) + U16ToLe(h.sequenceNumber) + U16ToLe(h.bufferSize)
      + [Discriminant(h.samplingRate), h.bitResolution, h.numChannels, h.connectionMode]
  }

  /** Each field of an encoded header sits at its packed offset. */
  lemma EncodeHeaderLayout(h: Header, f: Field)
    ensures Offset(f) + Width(f) <= HEADER_SIZE
    ensures EncodeHeader(h)[Offset(f)..Offset(f) + Width(f)] == FieldBytes(h, f)
  {
    PackedLayout();
  }

  /** The field-by-field decoder: LE u64 at 0..8, LE u16 at 8..10 and
      10..12, the rate code at 12 through `From<u8>`, then raw bytes 13, 14, 15. */
  function DecodeHeader(b: seq<byte>): (h: Header)
    requires |b| >= HEADER_SIZE
    ensures EncodeHeader(h)[..12] == b[..12] && EncodeHeader(h)[13..] == b[13..HEADER_SIZE]
    ensures EncodeHeader(h)[12] == if b[12] < 8 then b[12] else 7
  {
    U64BytesRoundTrip(b[0..8]);
    U16BytesRoundTrip(b[8..10]);
    U16BytesRoundTrip(b[10..12]);
    CodeRoundTrip(b[12]);
    assert b[..12] == b[0..8] + b[8..10] + b[10..12];
    Header(
      U64FromLe(b[0..8]),
      U16FromLe(b[8..10]),
      U16FromLe(b[10..12]),
      FromCode(b[12]),
      b[13],
      b[14],
      b[15])
  }

  /** The decoder never reads past byte 16. */
  lemma DecodeHeaderReadsPrefixOnly(b: seq<byte>, c: seq<byte>)
    requires |b| >= HEADER_SIZE && |c| >= HEADER_SIZE
    requires b[..HEADER_SIZE] == c[..HEADER_SIZE]
    ensures DecodeHeader(b) == DecodeHeader(c)
  {
    assert b[0..8] == b[..HEADER_SIZE][0..8];
    assert c[0..8] == c[..HEADER_SIZE][0..8];
    assert b[8..10] == b[..HEADER_SIZE][8..10];
    assert c[8..10] == c[..HEADER_SIZE][8..10];
    assert b[10..12] == b[..HEADER_SIZE][10..12];
    assert c[10..12] == c[..HEADER_SIZE][10..12];
    assert b[12] == b[..HEADER_SIZE][12] && b[13] == b[..HEADER_SIZE][13];
    assert b[14] == b[..HEADER_SIZE][14] && b[15] == b[..HEADER_SIZE][15];
  }

  /** Every header survives an encode/decode round trip. */
  lemma HeaderRoundTrip(h: Header)
    ensures DecodeHeader(EncodeHeader(h)) == h
  {
    var b := EncodeHeader(h);
    assert b[0..8] == U64ToLe(h.timeStamp);
    assert b[8..10] == U16ToLe(h.sequenceNumber);
    assert b[10..12] == U16ToLe(h.bufferSize);
    U64RoundTrip(h.timeStamp);
    U16RoundTrip(h.sequenceNumber);
    U16RoundTrip(h.bufferSize);
    DiscriminantRoundTrip(h.samplingRate);
  }

  /** Re-encoding a decoded header reproduces the 16 bytes exactly when
      byte 12 is a discriminant (0..7); codes 8..255 come back as 7. */
  lemma HeaderBytesRoundTrip(b: seq<byte>)
    requires |b| >= HEADER_SIZE
    ensures EncodeHeader(DecodeHeader(b)) == b[..HEADER_SIZE] <==> b[12] < 8
  {
    var e := EncodeHeader(DecodeHeader(b));
    U64BytesRoundTrip(b[0..8]);
    U16BytesRoundTrip(b[8..10]);
    U16BytesRoundTrip(b[10..12]);
    CodeRoundTrip(b[12]);
    assert e[12] == Discriminant(FromCode(b[12]));
    if b[12] < 8 {
      assert b[..HEADER_SIZE] == b[0..8] + b[8..10] + b[10..12] + [b[12], b[13], b[14], b[15]];
    } else {
      assert e[12] != b[..HEADER_SIZE][12];
    }
  }

  /** A buffer after its header is restamped for sending: the LE timestamp
      at 0..8 and the LE sequence number at 8..10, every later byte kept. */
  function Stamped(buf: seq<byte>, timestamp: u64, sequence: u16): (r: seq<byte>)
    requires |buf| == PACKET_SIZE
    ensures |r| == PACKET_SIZE
    ensures U64FromLe(r[..8]) == timestamp && U16FromLe(r[8..10]) == sequence && r[10..] == buf[10..]
  {
    U64RoundTrip(timestamp);
    U16RoundTrip(sequence);
    var r := U64ToLe(timestamp) + U16ToLe(sequence) + buf[10..];
    assert r[..8] == U64ToLe(timestamp) && r[8..10] == U16ToLe(sequence);
    r
  }

  /** Restamping changes exactly the timestamp and sequence-number fields. */
  lemma StampedHeader(buf: seq<byte>, timestamp: u64, sequence: u16)
    requires |buf| == PACKET_SIZE
    ensures DecodeHeader(Stamped(buf, timestamp, sequence))
         == DecodeHeader(buf).(timeStamp := timestamp, sequenceNumber := sequence)
    ensures Stamped(buf, timestamp, sequence)[10..] == buf[10..]
  {
    var p := Stamped(buf, timestamp, sequence);
    assert p[0..8] == U64ToLe(timestamp);
    assert p[8..10] == U16ToLe(sequence);
    assert p[10..12] == buf[10..12];
    U64RoundTrip(timestamp);
    U16RoundTrip(sequence);
  }

  /** A packet: header plus the 256-sample payload. */
  datatype Packet = Packet(header: Header, data: seq<i16>)

  predicate WellFormed(p: Packet)
  {
    |p.data| == PAYLOAD_SAMPLES
  }

  /** Sample i of the payload starts at byte 16 + 2i. */
  function SampleOffset(i: nat): (offset: nat)
  {
    HEADER_SIZE + 2 * i
  }

  /** The 256 sample slots lie inside the 528-byte record, one after the
      other, and the last one ends at its final byte. */
  lemma PayloadLayout(i: nat, j: nat)
    requires i < j < PAYLOAD_SAMPLES
    ensures HEADER_SIZE <= SampleOffset(i) && SampleOffset(i) + 2 <= SampleOffset(j)
    ensures SampleOffset(j) + 2 <= PACKET_SIZE
    ensures SampleOffset(PAYLOAD_SAMPLES) == PACKET_SIZE
  {
  }

  /** The signed LE value stored in sample slot i of a buffer. */
  function SampleAt(buf: seq<byte>, i: nat): (v: i16)
    requires SampleOffset(i) + 2 <= |buf|
  {
    I16FromLe(buf[SampleOffset(i)..SampleOffset(i) + 2])
  }

  /** The first n payload samples of a buffer. */
  function DecodePayload(buf: seq<byte>, n: nat): (r: seq<i16>)
    requires SampleOffset(n) <= |buf|
    ensures |r| == n
  {
    seq(n, i requires 0 <= i < n => SampleAt(buf, i))
  }

  lemma DecodePayloadPrefix(buf: seq<byte>, n: nat)
    requires SampleOffset(n + 1) <= |buf|
    ensures DecodePayload(buf, n + 1) == DecodePayload(buf, n) + [SampleAt(buf, n)]
  {
  }

  /** The samples, each as two LE bytes, one after the other. */
  function EncodeSamples(s: seq<i16>): (r: seq<byte>)
    ensures |r| == 2 * |s|
  {
    if s == [] then [] else I16ToLe(s[0]) + EncodeSamples(s[1..])
  }

  /** Sample i of an encoded run occupies bytes 2i and 2i+1 of it. */
  lemma {:induction false} EncodeSamplesAt(s: seq<i16>, i: nat)
    requires i < |s|
    ensures EncodeSamples(s)[2 * i..2 * i + 2] == I16ToLe(s[i])
  {
    if i > 0 {
      EncodeSamplesAt(s[1..], i - 1);
      assert EncodeSamples(s)[2 * i..2 * i + 2] == EncodeSamples(s[1..])[2 * (i - 1)..2 * (i - 1) + 2];
    }
  }

  /** A silent payload encodes as zero bytes. */
  lemma {:induction false} EncodeSilence(n: nat)
    ensures EncodeSamples(seq(n, _ => 0)) == seq(2 * n, _ => 0)
  {
    if n > 0 {
      EncodeSilence(n - 1);
      assert seq(n, _ => 0)[1..] == seq(n - 1, _ => 0);
      U16ToLeBytes(0);
    }
  }

  function EncodePacket(p: Packet): (r: seq<byte>)
    requires WellFormed(p)
    ensures |r| == PACKET_SIZE
  {
    EncodeHeader(p.header) + EncodeSamples(p.data)
  }

  function DecodePacket(b: seq<byte>): (p: Packet)
    requires |b| == PACKET_SIZE
    ensures WellFormed(p)
  {
    Packet(DecodeHeader(b), DecodePayload(b, PAYLOAD_SAMPLES))
  }

  /** Sample slot i of an encoded packet holds the LE bytes of sample i. */
  lemma EncodePacketSample(p: Packet, i: nat)
    requires WellFormed(p) && i < PAYLOAD_SAMPLES
    ensures EncodePacket(p)[SampleOffset(i)..SampleOffset(i) + 2] == I16ToLe(p.data[i])
    ensures SampleAt(EncodePacket(p), i) == p.data[i]
  {
    EncodeSamplesAt(p.data, i);
    var b := EncodePacket(p);
    assert b[SampleOffset(i)..SampleOffset(i) + 2] == EncodeSamples(p.data)[2 * i..2 * i + 2];
    I16RoundTrip(p.data[i]);
  }

  /** Every well-formed packet survives an encode/decode round trip. */
  lemma PacketRoundTrip(p: Packet)
    requires WellFormed(p)
    ensures DecodePacket(EncodePacket(p)) == p
  {
    var b := EncodePacket(p);
    assert b[..HEADER_SIZE] == EncodeHeader(p.header);
    DecodeHeaderReadsPrefixOnly(b, EncodeHeader(p.header));
    HeaderRoundTrip(p.header);
    forall i | 0 <= i < PAYLOAD_SAMPLES
      ensures DecodePayload(b, PAYLOAD_SAMPLES)[i] == p.data[i]
    {
      EncodePacketSample(p, i);
    }
  }

  /** What a `recv_from` into a reused buffer leaves there: the datagram
      overwrites the prefix it covers (cut off at the buffer's length) and
      every later byte keeps its previous value. */
  function Received(buf: seq<byte>, datagram: seq<byte>): (r: seq<byte>)
    ensures |r| == |buf|
    ensures forall j {:trigger r[j]} :: 0 <= j < |r| ==> r[j] == (if j < |datagram| then datagram[j] else buf[j])
  {
    var n := if |datagram| < |buf| then |datagram| else |buf|;
    datagram[..n] + buf[n..]
  }

  /** An all-zero buffer of n bytes, as `[0u8; n]` makes. */
  function Zeros(n: nat): (r: seq<byte>)
    ensures |r| == n
  {
    seq(n, _ => 0)
  }
}

=== FILE: sampling_rate.dfy ===
/**
 * The sampling-rate registry: the wire byte that names a sampling rate,
 * the enum it decodes to, and the rate in Hz each variant stands for.
 * Both maps are finite tables; the lemmas below cover all 256 codes.
 */
module SamplingRate {
  import opened Wire

  /** The sampling rates JACK supports, in declaration order, plus the
      sentinel for any byte that names none of them. */
  datatype SamplingRateT = SR22 | SR32 | SR44 | SR48 | SR88 | SR96 | SR192 | UNDEF

  /** The variants in declaration order: a variant's position is its
      discriminant, the byte a packed header stores for it. */
  const Variants: seq<SamplingRateT> := [SR22, SR32, SR44, SR48, SR88, SR96, SR192, UNDEF]

  /** The discriminant of a variant, i.e. its position in the declaration. */
  function Discriminant(r: SamplingRateT): (d: byte)
    ensures d < |Variants| && Variants[d] == r
  {
    match r
    case SR22 => 0
    case SR32 => 1
    case SR44 => 2
    case SR48 => 3
    case SR88 => 4
    case SR96 => 5
    case SR192 => 6
    case UNDEF => 7
  }

  /** `From<u8>`: total, never fails; codes 7..255 all give UNDEF. */
  function FromCode(item: byte): (r: SamplingRateT)
    ensures item < 7 ==> r == Variants[item]
    ensures item >= 7 ==> r == UNDEF
  {
    match item
    case 0 => SR22
    case 1 => SR32
    case 2 => SR44
    case 3 => SR48
    case 4 => SR88
    case 5 => SR96
    case 6 => SR192
    case _ => UNDEF
  }

  /** `as_numeric`: the rate in Hz; UNDEF has no rate and yields 0. */
  function AsNumeric(r: SamplingRateT): (hz: nat)
    ensures hz == 0 <==> r == UNDEF
  {
    match r
    case SR22 => 22050
    case SR32 => 32000
    case SR44 => 44100
    case SR48 => 48000
    case SR88 => 88000
    case SR96 => 96000
    case SR192 => 192000
    case UNDEF => 0
  }

  /** The `Display` label of each variant: every real rate is shown in
      kHz, and only UNDEF's label is not. */
  function Label(r: SamplingRateT): (s: string)
    ensures r != UNDEF <==> |s| >= 3 && s[|s| - 3..] == "kHz"
  {
    match r
    case SR22 => "22kHz"
    case SR32 => "32kHz"
    case SR44 => "44.1kHz"
    case SR48 => "48kHz"
    case SR88 => "88kHz"
    case SR96 => "96kHz"
    case SR192 => "192kHz"
    case UNDEF => "UNKNOWN SAMPLE RATE OMG!"
  }

  /** Decoding the discriminant of any variant gives the variant back, so
      the enum's declaration order agrees with `From<u8>`. */
  lemma DiscriminantRoundTrip(r: SamplingRateT)
    ensures FromCode(Discriminant(r)) == r
  {
  }

  /** Codes 0..7 are exactly the discriminants; codes 8..255 collapse onto UNDEF's 7. */
  lemma CodeRoundTrip(c: byte)
    ensures Discriminant(FromCode(c)) == (if c < 8 then c else 7)
  {
  }

  /** Different variants have different rates. */
  lemma AsNumericInjective(a: SamplingRateT, b: SamplingRateT)
    requires AsNumeric(a) == AsNumeric(b)
    ensures a == b
  {
  }

  /** Over the defined codes the rate strictly increases with the code. */
  lemma AsNumericIncreasing(c1: byte, c2: byte)
    requires c1 < c2 < 7
    ensures 0 < AsNumeric(FromCode(c1)) < AsNumeric(FromCode(c2))
  {
  }

  /** An unknown code yields rate 0, which no real device rate equals. */
  lemma UnknownCodeHasNoRate(c: byte, deviceRate: nat)
    requires c >= 7 && deviceRate > 0
    ensures AsNumeric(FromCode(c)) != deviceRate
  {
  }

  /** Code 3, the one outgoing packets carry, names 48000 Hz. */
  lemma OutgoingCodeIs48k()
    ensures FromCode(3) == SR48 && AsNumeric(FromCode(3)) == 48000
  {
  }

  /** SR88 yields 88000 rather than the JACK rate 88200, and no code at
      all yields 88200: a device running at 88200 Hz never matches. */
  lemma No88200(c: byte)
    ensures AsNumeric(FromCode(c)) != 88200
    ensures AsNumeric(SR88) == 88000
  {
  }

  /** Every variant has its own label, and UNDEF's is the fixed warning. */
  lemma LabelsDistinct(a: SamplingRateT, b: SamplingRateT)
    requires a != b
    ensures Label(a) != Label(b)
    ensures Label(UNDEF) == "UNKNOWN SAMPLE RATE OMG!"
  {
    assert Label(a)[0] != Label(b)[0] || Label(a)[1] != Label(b)[1] || |Label(a)| != |Label(b)|;
  }
}

=== FILE: wire.dfy ===
/**
 * The fixed-width integers of the JackTrip wire format and their
 * little-endian byte encodings, as Rust's `to_le_bytes` and
 * `from_le_bytes` compute them for `u16`, `u64` and `i16`.
 *
 * Dafny integers are unbounded, so each Rust width is a subset type of
 * `int` and every wrap-around is written out.
 */
module Wire {

  type byte = x: int | 0 <= x < 0x100
  type u16 = x: int | 0 <= x < 0x1_0000
  type u64 = x: int | 0 <= x < 0x1_0000_0000_0000_0000
  type i16 = x: int | -0x8000 <= x < 0x8000

  /** The Rust panics the model makes explicit instead of excluding: a
      slice index past the end of a buffer, and `u16` addition overflowing
      (the checked arithmetic of a debug build). */
  datatype Panic = SliceOutOfRange | AddOverflow

  /** 256^n: one more than the largest value n bytes can hold. */
  function Pow256(n: nat): (r: nat)
    ensures r > 0
  {
    if n == 0 then 1 else 256 * Pow256(n - 1)
  }

  lemma Pow256Values()
    ensures Pow256(2) == 0x1_0000
    ensures Pow256(8) == 0x1_0000_0000_0000_0000
  {
    assert Pow256(1) == 0x100;
    assert Pow256(2) == 0x1_0000;
    assert Pow256(4) == 0x1_0000_0000 by {
      assert Pow256(3) == 0x100_0000;
    }
    assert Pow256(6) == 0x1_0000_0000_0000 by {
      assert Pow256(5) == 0x100_0000_0000;
    }
    assert Pow256(7) == 0x100_0000_0000_0000;
  }

  /** The n low-order bytes of x, least significant first. */
  function LeBytes(x: nat, n: nat): (r: seq<byte>)
    ensures |r| == n
  {
    if n == 0 then [] else [x % 256] + LeBytes(x / 256, n - 1)
  }

  /** The unsigned value of a little-endian byte string. */
  function LeValue(b: seq<byte>): (v: nat)
    ensures v < Pow256(|b|)
  {
    if b == [] then 0 else b[0] + 256 * LeValue(b[1..])
  }

  /** Decoding the n low-order bytes of a value that fits in n bytes gives it back. */
  lemma {:induction false} LeValueOfBytes(x: nat, n: nat)
    requires x < Pow256(n)
    ensures LeValue(LeBytes(x, n)) == x
  {
    if n > 0 {
      LeValueOfBytes(x / 256, n - 1);
      assert LeBytes(x, n)[1..] == LeBytes(x / 256, n - 1);
    }
  }

  /** Encoding the value of a byte string at its own width gives the string back. */
  lemma {:induction false} LeBytesOfValue(b: seq<byte>)
    ensures LeBytes(LeValue(b), |b|) == b
  {
    if b != [] {
      LeBytesOfValue(b[1..]);
      var v := LeValue(b);
      assert v % 256 == b[0] && v / 256 == LeValue(b[1..]);
    }
  }

  function U16ToLe(x: u16): (r: seq<byte>)
    ensures |r| == 2
  {
    LeBytes(x, 2)
  }

  function U16FromLe(b: seq<byte>): (x: u16)
    requires |b| == 2
  {
    Pow256Values();
    LeValue(b)
  }

  function U64ToLe(x: u64): (r: seq<byte>)
    ensures |r| == 8
  {
    LeBytes(x, 8)
  }

  function U64FromLe(b: seq<byte>): (x: u64)
    requires |b| == 8
  {
    Pow256Values();
    LeValue(b)
  }

  /** Two's complement: a negative i16 is stored as x + 65536. */
  function I16ToLe(x: i16): (r: seq<byte>)
    ensures |r| == 2
  {
    U16ToLe(if x < 0 then x + 0x1_0000 else x)
  }

  function I16FromLe(b: seq<byte>): (x: i16)
    requires |b| == 2
  {
    var u := U16FromLe(b);
    if u < 0x8000 then u else u - 0x1_0000
  }

  /** The two bytes of a u16 are its low byte and its high byte. */
  lemma U16ToLeBytes(x: u16)
    ensures U16ToLe(x) == [x % 256, x / 256]
  {
    assert LeBytes(x / 256, 1) == [x / 256 % 256] + LeBytes(x / 256 / 256, 0);
  }

  /** The value of two bytes is low + 256 * high. */
  lemma U16FromLeValue(b: seq<byte>)
    requires |b| == 2
    ensures U16FromLe(b) == b[0] as int + 256 * b[1] as int
  {
    assert b[1..][1..] == [];
    assert LeValue(b[1..]) == b[1] as int;
  }

  lemma U16RoundTrip(x: u16)
    ensures U16FromLe(U16ToLe(x)) == x
  {
    Pow256Values();
    LeValueOfBytes(x, 2);
  }

  lemma U16BytesRoundTrip(b: seq<byte>)
    requires |b| == 2
    ensures U16ToLe(U16FromLe(b)) == b
  {
    LeBytesOfValue(b);
  }

  lemma U64RoundTrip(x: u64)
    ensures U64FromLe(U64ToLe(x)) == x
  {
    Pow256Values();
    LeValueOfBytes(x, 8);
  }

  lemma U64BytesRoundTrip(b: seq<byte>)
    requires |b| == 8
    ensures U64ToLe(U64FromLe(b)) == b
  {
    LeBytesOfValue(b);
  }

  /** from_le_bytes(to_le_bytes(x)) == x for every i16. */
  lemma I16RoundTrip(x: i16)
    ensures I16FromLe(I16ToLe(x)) == x
  {
    U16RoundTrip(if x < 0 then x + 0x1_0000 else x);
  }

  /** Every pair of bytes is the encoding of exactly one i16. */
  lemma I16BytesRoundTrip(b: seq<byte>)
    requires |b| == 2
    ensures I16ToLe(I16FromLe(b)) == b
  {
    U16BytesRoundTrip(b);
  }
}

=== FILE: wrappers.dfy ===
/** Option and Result, for the outcomes the source reports by panicking. */
module Wrappers {
  datatype Option<T> = None | Some(value: T)

  datatype Result<T, E> = Success(value: T) | Failure(error: E)
}
